=== FILE: README.md ===
# progress-monitor bookkeeping in Dafny

This project models the progress tree of `ProgressMonitor` (lib/progress-monitor.js).
A monitor has a `total` amount of work. It records its own direct work
(`currentWorked`) and hands slices of its total to child monitors (`split`, which
grows `childTotal`). It collects credit from those children (`childWorked`). When it
is itself a child, it also has a slice of its parent (`totalOfParent`) and a running
amount already pushed to the parent (`sentToParent`). Two flags, `started` and
`done`, complete the state. `worked()` is `childWorked + currentWorked`, and
`available()` is the capacity neither worked directly nor handed to children.

Monitors live in an arena: `Forest` maps an identity `Id` to a `Node`. The
operations are pure functions from the forest before a call to the forest after it:

- `new ProgressMonitor(total)`
- `start`
- `end`
- `split`
- `ProgressMonitor.adjustTotal`
- `work`
- `updateParent`

`split` and `adjustTotal` also return an `Option`, which plays the role of the
source's `undefined` result. The event channel is not modelled. A monitor's
`emit("start")` has the effect of `Start`: `End` and `Record` set the same flag
in place. The parent's `emit("work", v, true)` is a
call of `Work(.., v, true)` on the parent. These are the listeners the constructor
registers (lib/progress-monitor.js:41-45). Quantities are exact `real`s.

Modules:

- `ProgressMonitor` (monitor.dfy): the state and the operations. Each operation's
  contract, with `WorkForwards` for forwarded reports, states its effect on every
  monitor of the forest.
- `Accounting` (accounting.dfy): the invariant `Valid` that holds of every forest
  built from `Empty` by creating roots with non-negative totals and by the other
  operations, with direct reports only and `updateParent` only as `work` calls it.
  It proves that each of these operations preserves it. With `Propagation.WorkKeepsWorked`, it also proves that no operation lowers any
  monitor's `worked()`. For a
  monitor that is not done, the invariant says that its child credit plus what
  its unfinished children still owe equals its `childTotal`. For a done monitor,
  that sum is at most its `childTotal`. A child's `sentToParent` is proportional to
  its direct work and never exceeds its slice. Consequences:
  - `worked() <= total`;
  - `available() >= 0`;
  - a monitor that is not done and whose children have all ended holds full
    credit for every slice it handed out.
- `Propagation` (propagation.dfy): direct work and its forwarding. A report that
  fits the spare capacity of an unfinished monitor is recorded in full. The
  parent, when it is not done, receives exactly the rescaled amount, and nothing
  beyond the parent changes.
- `Scenario` (scenario.dfy): the demonstration program examples/simple.js, worked
  through to its end. The root finishes with `worked() == 100`.

Propagation is one level deep. Child-originated work is recorded as child credit
and is not forwarded (lib/progress-monitor.js:157-166). A grandparent learns of a
grandchild's work only when the middle monitor ends: `end` pays its parent the
unsent rest of its slice (lib/progress-monitor.js:89-92). The constructor takes
any total, with no check of its sign (lib/progress-monitor.js:8-36), and so does
`Create`.

A monitor that ends before its children can lose credit for good. Its own
`updateParent` guard drops any share a child forwards afterwards
(lib/progress-monitor.js:142), while the child adds that share to its
`sentToParent` all the same (lib/progress-monitor.js:134). When the child ends,
it pays only `totalOfParent - sentToParent` (lib/progress-monitor.js:91), so the
dropped share is never credited. For example: a root of 100 splits off 50, the
root ends, the slice records 10 units of direct work, and the slice ends. The
root then holds 40 of the 50 it handed out. `Propagation.DoneParentDropsShare`
states this shortfall for any such report.

## Model

| member | source | states |
|---|---|---|
| ProgressMonitor.Create | lib/progress-monitor.js:8-36 | the new monitor is a fresh identity, a pending root with the given total, zero counters and no children; every existing monitor is unchanged |
| ProgressMonitor.Start | lib/progress-monitor.js:71-76 | only the started flag of the monitor is set; a second start leaves the forest exactly as it was |
| ProgressMonitor.End | lib/progress-monitor.js:81-96 | a done monitor is left alone (a second end is a no-op); otherwise the monitor becomes started and done, and its parent's `childWorked` grows by exactly `totalOfParent - sentToParent`, whether or not the parent is done; no other monitor changes |
| ProgressMonitor.Split | lib/progress-monitor.js:102-126 | no child, and no change at all, if and only if the monitor is done or the amount exceeds `available()`; otherwise a fresh pending childless child with total and slice equal to the amount is appended last to the children, `childTotal` grows by the amount, and nothing else changes |
| ProgressMonitor.AdjustTotal | lib/progress-monitor.js:54-66 | rejected, with nothing changed, if and only if the monitor is started, done or has a child; otherwise it returns the same monitor, rescaled as `Rescaled` states, and no other monitor changes |
| ProgressMonitor.Rescaled | lib/progress-monitor.js:60-64 | only `total` and `currentWorked` change; the new total is taken, and the fraction already worked is kept (`currentWorked' * total == currentWorked * newTotal`); non-negative work stays non-negative |
| ProgressMonitor.Worked | lib/progress-monitor.js:174-176 | `worked()`: `childWorked + currentWorked` |
| ProgressMonitor.Available | lib/progress-monitor.js:124-126 | `available()`: `total - childTotal - currentWorked` |
| ProgressMonitor.Ceiling | lib/progress-monitor.js:149-152 | the clamp ceiling of `work`: `available()` for direct work, `childTotal - childWorked` for child-originated work |
| ProgressMonitor.Share | lib/progress-monitor.js:133 | a direct amount in the parent's scale: `value * (totalOfParent / total)` |
| ProgressMonitor.Record | lib/progress-monitor.js:140-171 | the guard: a done monitor, or one with `worked() >= total`, is left alone; otherwise the monitor is started even when nothing is recorded; the report is clamped to `available()` (direct) or `childTotal - childWorked` (from a child), recorded in full when it fits and at the ceiling when it does not, and nothing is recorded when the clamped value is not positive; direct work stays within the unallocated capacity, child credit within the allocation; `done` is never set |
| ProgressMonitor.UpdateParent | lib/progress-monitor.js:128-138 | a root changes nothing; otherwise `sentToParent` grows by `value * totalOfParent / total` and the parent records that same amount as child-originated work |
| ProgressMonitor.Work | lib/progress-monitor.js:140-172 | child-originated work, work on a root, and a direct report that records nothing change only the receiving monitor, as `Record` states; the shape of the forest is kept |
| ProgressMonitor.WorkForwards | lib/progress-monitor.js:157-166 | a direct report that records `v > 0` on a monitor with a parent also adds `v * totalOfParent / total` to its `sentToParent`, and the parent records exactly that amount as child-originated work; no other monitor changes |
| Propagation.WorkReach | lib/progress-monitor.js:157-166 | work never ends a monitor or changes its total, allocation, links or slice; it reaches no monitor other than the receiver and, for direct work, the receiver's parent, so child-originated work stays local |
| Propagation.PropagationExact | lib/progress-monitor.js:128-138 | in a valid forest, a direct report `0 < v <= available()` on an unfinished child of an unfinished parent raises the child's `worked()` by `v` and the parent's `worked()` by exactly the rescaled `v` |
| Propagation.DoneParentDropsShare | lib/progress-monitor.js:128-166 | a direct report recording `v > 0` on an unfinished monitor whose parent is done leaves the parent unchanged yet raises the sender's `sentToParent` by the rescaled share; when the sender then ends, the parent's `childWorked` grows by only `totalOfParent - sentToParent` minus that share, so the share is never credited |
| Propagation.ParentTakesShare | lib/progress-monitor.js:149-157 | in a valid forest, a parent that is not done accepts the whole share that a child still owing it sends: neither the guard nor the clamp cuts it |
| Propagation.SenderBooks | lib/progress-monitor.js:128-134 | what a child has sent stays proportional to its direct work and within its slice after it forwards a report |
| Propagation.WorkKeepsValid | lib/progress-monitor.js:140-172 | every direct report keeps the books of the whole forest |
| Accounting.CreateKeepsValid | lib/progress-monitor.js:8-36 | creating a root with a non-negative total keeps the books |
| Accounting.StartKeepsValid | lib/progress-monitor.js:71-76 | starting keeps the books |
| Accounting.EndKeepsValid | lib/progress-monitor.js:81-96 | ending keeps the books: the parent's credit grows by what the child still owed, and that debt drops to zero |
| Accounting.SplitKeepsValid | lib/progress-monitor.js:102-122 | splitting keeps the books: the allocation and the children's debt grow by the same amount |
| Accounting.AdjustTotalKeepsValid | lib/progress-monitor.js:54-66 | rescaling keeps the books |
| Accounting.StartKeepsWorked | lib/progress-monitor.js:71-76 | starting leaves every monitor's `worked()` as it was |
| Accounting.EndKeepsWorked | lib/progress-monitor.js:81-96 | in a valid forest, ending lowers no monitor's `worked()` |
| Accounting.SplitKeepsWorked | lib/progress-monitor.js:102-122 | splitting leaves every existing monitor's `worked()` as it was |
| Accounting.AdjustTotalKeepsWorked | lib/progress-monitor.js:54-66 | in a valid forest, rescaling leaves every monitor's `worked()` as it was |
| Propagation.WorkKeepsWorked | lib/progress-monitor.js:140-172 | no report, direct or from a child, lowers any monitor's `worked()` |
| Accounting.WorkedWithinTotal | lib/progress-monitor.js:124-126 | in a valid forest, `0 <= worked() <= total`, `childWorked <= childTotal` and `available() >= 0` for every monitor |
| Accounting.ChildrenDoneFullCredit | lib/progress-monitor.js:89-92 | a monitor that is not done and whose children have all ended has `childWorked == childTotal`: ending reconciles every slice |
| Scenario.ReportUnits | examples/simple.js:57-59 | `k` reports of one unit that fit are all recorded, and the unfinished parent receives as child credit exactly what the child sent |
| Scenario.WorkLoop | examples/simple.js:52-65 | a fresh slice that is rescaled to 100, worked 100 times by one unit and ended has worked its whole total, and its parent holds credit for the whole slice |
| Scenario.SimpleExample | examples/simple.js:6-46 | both splits of 50 are accepted, and after the final end the root is done with `worked() == total == 100`, all of it child credit |

## Left out

- The event machinery: `EventEmitter`, listener registration order and external observers (the console output of examples/simple.js:11-30). An external `emit("start")` or `emit("end")` also reaches observers regardless of state; that is observer I/O, not bookkeeping.
- External `updateParent` calls: the method is public, but a standalone call raises `sentToParent` without any direct work, which breaks the proportionality in `Valid`. The invariant is proved only for the call that `work` makes.
- External child-originated work: `Work(.., v, true)` called by a client rather than by a child's `updateParent` is modelled by `Work`, but the invariant `Valid` is proved only for direct reports. A client can inflate a parent's child credit this way, and no accounting promise holds for that.
- IEEE-754 arithmetic: quantities are exact reals, so rounding in `value * (totalOfParent / total)` and `newTotal / oldTotal` is not modelled.
- The `cancelled` flag (lib/progress-monitor.js:32): it is set at construction and never read or written afterwards.
- The constructor's default total of 100: `Create` always takes the total explicitly.
- ProgressMonitor.Split: negative amounts are excluded by `requires amount >= 0.0`, though the source accepts them. They can make a monitor with total 0 and negative credit forward work, and `updateParent` then divides by zero (NaN in JavaScript), which real arithmetic cannot express.
- ProgressMonitor.AdjustTotal: a negative `newTotal` is excluded, and so is a non-positive old total on the accepted path, though the source accepts both. A zero old total divides by zero at lib/progress-monitor.js:61. A negative one, which a root created with a negative total has, gives a negative scale there.
- ProgressMonitor.UpdateParent: it requires a nonzero total on a child, the divisor at lib/progress-monitor.js:133. `Work` reaches it only with positive spare capacity, and there the total is positive.
- Accounting.CreateKeepsValid: a root created with a negative total falls outside the invariant `Valid`, which asks for `currentWorked + childTotal <= total`. The lemma requires a non-negative total, so nothing is proved about forests holding such a root.
- The operations require the shape `WellFormed`: parents exist and were created earlier, and direct work and allocations are non-negative. Every forest built by the operations from `Empty` has this shape. It replaces JavaScript object references, so a dangling reference cannot be expressed.
- Module export and `require` wiring, and examples/simple.js's console output.

=== FILE: accounting.dfy ===
/**
  The reachable-state invariant of a progress-monitor forest and its proofs.

  Besides the shape every operation needs (`WellFormed`), a forest built by the
  operations keeps its books: each monitor's direct work and allocation fit in
  its total, what a child has sent stays proportional to its direct work and
  within its slice, and a parent's child credit plus what its unfinished
  children still owe never exceeds the allocation it handed out (and equals it
  while the parent is not done). From this follow the bound `worked() <= total`,
  the exactness of one-level propagation, and the full credit of a parent that
  is not done and whose children have all ended.
*/
module Accounting {
  import opened Wrappers
  import opened ProgressMonitor

  /** What child `c` still owes its parent: the part of its slice not yet sent,
      while it is not done (ending pays it off). */
  function OwedBy(nodes: map<Id, Node>, c: Id): real {
    if c in nodes && !nodes[c].done then nodes[c].totalOfParent - nodes[c].sentToParent else 0.0
  }

  /** What the children `ids` still owe, together. */
  function Owed(nodes: map<Id, Node>, ids: seq<Id>): real {
    if ids == [] then 0.0 else Owed(nodes, ids[..|ids| - 1]) + OwedBy(nodes, ids[|ids| - 1])
  }

  predicate Distinct(ids: seq<Id>) {
    forall i, j | 0 <= i < j < |ids| :: ids[i] != ids[j]
  }

  /** The books a monitor keeps in its own fields. */
  ghost predicate LocalBooks(n: Node) {
    && n.currentWorked >= 0.0 && n.childTotal >= 0.0
    && n.childWorked >= 0.0 && n.sentToParent >= 0.0
    && n.currentWorked + n.childTotal <= n.total
    && (n.done ==> n.started)
    && (!n.started ==> n.currentWorked == 0.0 && n.sentToParent == 0.0)
    && (n.children == [] ==> n.childTotal == 0.0)
    && Distinct(n.children)
    && (n.parent.None? ==> n.sentToParent == 0.0)
    && (n.parent.Some? ==>
          && n.totalOfParent >= 0.0
          && n.sentToParent <= n.totalOfParent
          && Proportional(n))
  }

  /** What a child has sent is its direct work rescaled to the parent's scale. */
  ghost predicate Proportional(n: Node) {
    n.sentToParent * n.total == n.currentWorked * n.totalOfParent
  }

  lemma ProportionalFields(n: Node, m: Node)
    requires m.sentToParent == n.sentToParent && m.total == n.total
    requires m.currentWorked == n.currentWorked && m.totalOfParent == n.totalOfParent
    ensures Proportional(m) == Proportional(n)
  {
  }

  /** The books of monitor `id`: its own, what its children owe it, and the
      links between it and its children and parent. */
  ghost predicate NodeValid(nodes: map<Id, Node>, id: Id)
    requires id in nodes
  {
    var n := nodes[id];
    && LocalBooks(n)
    && n.childWorked + Owed(nodes, n.children) <= n.childTotal
    && (!n.done ==> n.childWorked + Owed(nodes, n.children) == n.childTotal)
    && (forall c | c in n.children :: c in nodes && nodes[c].parent == Some(id))
    && (n.parent.Some? ==> n.parent.value in nodes && id in nodes[n.parent.value].children)
  }

  /** A forest every monitor of which keeps its books. */
  ghost predicate Valid(f: Forest) {
    && WellFormed(f)
    && forall id {:trigger NodeValid(f.nodes, id)} | id in f.nodes :: NodeValid(f.nodes, id)
  }

  // ----- sums over a list of children -----

  lemma DistinctAppend(ids: seq<Id>, c: Id)
    requires Distinct(ids) && c !in ids
    ensures Distinct(ids + [c])
  {
  }

  lemma {:induction false} OwedFrame(m1: map<Id, Node>, m2: map<Id, Node>, ids: seq<Id>)
    requires forall c | c in ids :: OwedBy(m1, c) == OwedBy(m2, c)
    ensures Owed(m1, ids) == Owed(m2, ids)
    decreases |ids|
  {
    if ids != [] {
      OwedFrame(m1, m2, ids[..|ids| - 1]);
    }
  }

  lemma {:induction false} OwedUpdate(m1: map<Id, Node>, m2: map<Id, Node>, ids: seq<Id>, x: Id)
    requires Distinct(ids) && x in ids
    requires forall c | c in ids && c != x :: OwedBy(m1, c) == OwedBy(m2, c)
    ensures Owed(m2, ids) == Owed(m1, ids) - OwedBy(m1, x) + OwedBy(m2, x)
    decreases |ids|
  {
    var init := ids[..|ids| - 1];
    if ids[|ids| - 1] == x {
      assert x !in init;
      OwedFrame(m1, m2, init);
    } else {
      OwedUpdate(m1, m2, init, x);
    }
  }

  lemma OwedAppend(m: map<Id, Node>, ids: seq<Id>, c: Id)
    ensures Owed(m, ids + [c]) == Owed(m, ids) + OwedBy(m, c)
  {
  }

  lemma {:induction false} OwedCovers(m: map<Id, Node>, ids: seq<Id>, x: Id)
    requires forall c | c in ids :: OwedBy(m, c) >= 0.0
    ensures Owed(m, ids) >= 0.0
    ensures x in ids ==> Owed(m, ids) >= OwedBy(m, x)
    decreases |ids|
  {
    if ids != [] {
      OwedCovers(m, ids[..|ids| - 1], x);
    }
  }

  lemma {:induction false} OwedPaidOff(m: map<Id, Node>, ids: seq<Id>)
    requires forall c | c in ids :: c in m && m[c].done
    ensures Owed(m, ids) == 0.0
    decreases |ids|
  {
    if ids != [] {
      OwedPaidOff(m, ids[..|ids| - 1]);
    }
  }

  // ----- consequences of the invariant -----

  /** No unfinished child owes a negative amount. */
  lemma ChildrenOweNonNegative(f: Forest, q: Id)
    requires Valid(f) && q in f.nodes
    ensures forall c | c in f.nodes[q].children :: OwedBy(f.nodes, c) >= 0.0
    ensures Owed(f.nodes, f.nodes[q].children) >= 0.0
  {
    assert NodeValid(f.nodes, q);
    forall c | c in f.nodes[q].children
      ensures OwedBy(f.nodes, c) >= 0.0
    {
      assert NodeValid(f.nodes, c);
    }
    OwedCovers(f.nodes, f.nodes[q].children, q);
  }

  /** Every monitor of a valid forest has `worked() <= total`, and its child
      credit never exceeds what it allocated to children. */
  lemma WorkedWithinTotal(f: Forest, id: Id)
    requires Valid(f) && id in f.nodes
    ensures f.nodes[id].childWorked <= f.nodes[id].childTotal
    ensures 0.0 <= Worked(f.nodes[id]) <= f.nodes[id].total
    ensures Available(f.nodes[id]) >= 0.0
  {
    ChildrenOweNonNegative(f, id);
    assert NodeValid(f.nodes, id);
  }

  /** A monitor that is not done and whose children have all ended holds full
      credit for every slice it handed out. */
  lemma ChildrenDoneFullCredit(f: Forest, id: Id)
    requires Valid(f) && id in f.nodes && !f.nodes[id].done
    requires forall c | c in f.nodes[id].children :: c in f.nodes && f.nodes[c].done
    ensures f.nodes[id].childWorked == f.nodes[id].childTotal
    ensures Worked(f.nodes[id]) == f.nodes[id].currentWorked + f.nodes[id].childTotal
  {
    OwedPaidOff(f.nodes, f.nodes[id].children);
    assert NodeValid(f.nodes, id);
  }

  /** The books of `q` survive a change elsewhere that leaves `q`, what its
      children owe, and its place among its parent's children as they were. */
  lemma NodeValidFrame(m1: map<Id, Node>, m2: map<Id, Node>, q: Id)
    requires q in m1 && q in m2 && NodeValid(m1, q)
    requires m2[q] == m1[q]
    requires forall c | c in m1[q].children ::
      c in m2 && m2[c].parent == m1[c].parent && OwedBy(m2, c) == OwedBy(m1, c)
    requires m1[q].parent.Some? ==>
      m1[q].parent.value in m2 && q in m2[m1[q].parent.value].children
    ensures NodeValid(m2, q)
  {
    OwedFrame(m1, m2, m1[q].children);
  }

  /** Replacing one monitor by a version with the same links, slice, amount
      sent and done flag leaves every other monitor's books, and what its own
      children owe, as they were. */
  lemma ReplaceKeepsOthers(f: Forest, id: Id, m: Node, g: Forest)
    requires Valid(f) && id in f.nodes
    requires g.nodes == f.nodes[id := m]
    requires var n := f.nodes[id];
      && m.done == n.done && m.totalOfParent == n.totalOfParent && m.sentToParent == n.sentToParent
      && m.parent == n.parent && m.children == n.children
    ensures forall q | q in g.nodes && q != id :: NodeValid(g.nodes, q)
    ensures Owed(g.nodes, m.children) == Owed(f.nodes, f.nodes[id].children)
  {
    assert forall c :: OwedBy(g.nodes, c) == OwedBy(f.nodes, c);
    OwedFrame(f.nodes, g.nodes, m.children);
    forall q | q in g.nodes && q != id
      ensures NodeValid(g.nodes, q)
    {
      NodeValidFrame(f.nodes, g.nodes, q);
    }
  }

  /** ...and if the new version keeps its own books and its child accounts,
      the whole forest still does. */
  lemma ReplaceKeepsValid(f: Forest, id: Id, m: Node, g: Forest)
    requires Valid(f) && id in f.nodes && WellFormed(g)
    requires g.nodes == f.nodes[id := m]
    requires var n := f.nodes[id];
      && m.done == n.done && m.totalOfParent == n.totalOfParent && m.sentToParent == n.sentToParent
      && m.parent == n.parent && m.children == n.children
      && m.childWorked == n.childWorked && m.childTotal == n.childTotal
    requires LocalBooks(m)
    ensures Valid(g)
  {
    var n := f.nodes[id];
    ReplaceKeepsOthers(f, id, m, g);
    assert NodeValid(f.nodes, id);
    assert forall c | c in n.children :: c in g.nodes && g.nodes[c].parent == Some(id);
    assert NodeValid(g.nodes, id);
  }

  // ----- every operation keeps the books -----

  lemma CreateKeepsValid(f: Forest, total: real)
    requires Valid(f) && total >= 0.0
    ensures Valid(Create(f, total).0)
  {
    var (g, id) := Create(f, total);
    assert forall c | c in f.nodes :: OwedBy(g.nodes, c) == OwedBy(f.nodes, c);
    forall q | q in g.nodes
      ensures NodeValid(g.nodes, q)
    {
      if q != id {
        NodeValidFrame(f.nodes, g.nodes, q);
      }
    }
  }

  lemma StartKeepsValid(f: Forest, id: Id)
    requires Valid(f) && id in f.nodes
    ensures Valid(Start(f, id))
  {
    var g := Start(f, id);
    assert NodeValid(f.nodes, id);
    ReplaceKeepsValid(f, id, g.nodes[id], g);
  }

  lemma AdjustTotalKeepsValid(f: Forest, id: Id, newTotal: real)
    requires Valid(f) && id in f.nodes && newTotal >= 0.0
    requires !f.nodes[id].started && !f.nodes[id].done && f.nodes[id].children == [] ==>
      f.nodes[id].total > 0.0
    ensures Valid(AdjustTotal(f, id, newTotal).0)
  {
    if AdjustTotal(f, id, newTotal).1.Some? {
      RescaledKeepsValid(f, id, newTotal);
    }
  }

  /** The accepted case of `adjustTotal`: a pending childless monitor has no
      work recorded, so rescaling it keeps the books. */
  lemma RescaledKeepsValid(f: Forest, id: Id, newTotal: real)
    requires Valid(f) && id in f.nodes && newTotal >= 0.0
    requires !f.nodes[id].started && !f.nodes[id].done && f.nodes[id].children == []
    requires f.nodes[id].total > 0.0
    ensures Valid(AdjustTotal(f, id, newTotal).0)
  {
    var r := AdjustTotal(f, id, newTotal);
    var n := f.nodes[id];
    assert LocalBooks(n) by {
      assert NodeValid(f.nodes, id);
    }
    var m := n.(total := newTotal, currentWorked := 0.0);
    assert r.0.nodes[id] == m by {
      assert r.0.nodes[id].currentWorked == 0.0 * (newTotal / n.total);
    }
    ReplaceKeepsValid(f, id, m, r.0);
  }

  lemma SplitKeepsValid(f: Forest, id: Id, amount: real)
    requires Valid(f) && id in f.nodes && amount >= 0.0
    ensures Valid(Split(f, id, amount).0)
  {
    if Split(f, id, amount).1.Some? {
      SplitAcceptedKeepsValid(f, id, amount);
    }
  }

  /** The accepted case of `split`: the parent's allocation and what its
      children owe grow by the same amount, and the new child starts with
      clean books. */
  lemma SplitAcceptedKeepsValid(f: Forest, id: Id, amount: real)
    requires Valid(f) && id in f.nodes && amount >= 0.0
    requires !f.nodes[id].done && amount <= Available(f.nodes[id])
    ensures Valid(Split(f, id, amount).0)
  {
    var r := Split(f, id, amount);
    var g := r.0;
    var c := r.1.value;
    SplitParent(f, id, amount);
    assert NodeValid(g.nodes, c) by {
      assert LocalBooks(g.nodes[c]);
    }
    forall q | q in g.nodes && q != id && q != c
      ensures NodeValid(g.nodes, q)
    {
      SplitOther(f, id, amount, q);
    }
  }

  /** What the children owe after an accepted split: the new child owes its
      whole slice, and every other debt is as it was. */
  lemma SplitOwed(f: Forest, id: Id, amount: real)
    requires Valid(f) && id in f.nodes && amount >= 0.0
    requires !f.nodes[id].done && amount <= Available(f.nodes[id])
    ensures var r := Split(f, id, amount);
      && r.1.Some?
      && (forall x | x != r.1.value :: OwedBy(r.0.nodes, x) == OwedBy(f.nodes, x))
      && OwedBy(r.0.nodes, r.1.value) == amount
  {
  }

  lemma SplitParent(f: Forest, id: Id, amount: real)
    requires Valid(f) && id in f.nodes && amount >= 0.0
    requires !f.nodes[id].done && amount <= Available(f.nodes[id])
    ensures NodeValid(Split(f, id, amount).0.nodes, id)
  {
    var r := Split(f, id, amount);
    var g := r.0;
    var c := r.1.value;
    var n := f.nodes[id];
    var grown := g.nodes[id];
    assert NodeValid(f.nodes, id);
    SplitOwed(f, id, amount);
    assert c !in n.children;
    OwedFrame(f.nodes, g.nodes, n.children);
    OwedAppend(g.nodes, n.children, c);
    assert LocalBooks(grown) by {
      assert LocalBooks(n);
      DistinctAppend(n.children, c);
      ProportionalFields(n, grown);
    }
    assert forall x | x in grown.children :: x in g.nodes && g.nodes[x].parent == Some(id);
  }

  lemma SplitOther(f: Forest, id: Id, amount: real, q: Id)
    requires Valid(f) && id in f.nodes && amount >= 0.0
    requires !f.nodes[id].done && amount <= Available(f.nodes[id])
    requires var r := Split(f, id, amount); q in r.0.nodes && q != id && q != r.1.value
    ensures NodeValid(Split(f, id, amount).0.nodes, q)
  {
    var g := Split(f, id, amount).0;
    SplitOwed(f, id, amount);
    assert NodeValid(f.nodes, q);
    NodeValidFrame(f.nodes, g.nodes, q);
  }

  lemma EndKeepsValid(f: Forest, id: Id)
    requires Valid(f) && id in f.nodes
    ensures Valid(End(f, id))
  {
    if !f.nodes[id].done {
      if f.nodes[id].parent.Some? {
        EndChildKeepsValid(f, id);
      } else {
        EndRootKeepsValid(f, id);
      }
    }
  }

  lemma EndRootKeepsValid(f: Forest, id: Id)
    requires Valid(f) && id in f.nodes && !f.nodes[id].done && f.nodes[id].parent.None?
    ensures Valid(End(f, id))
  {
    var g := End(f, id);
    var n := f.nodes[id];
    assert NodeValid(f.nodes, id);
    assert g.nodes == f.nodes[id := n.(started := true, done := true)];
    // a root is nobody's child, so nothing owed changes
    assert forall x | x != id :: OwedBy(g.nodes, x) == OwedBy(f.nodes, x);
    assert id !in n.children;
    OwedFrame(f.nodes, g.nodes, n.children);
    assert NodeValid(g.nodes, id) by {
      assert LocalBooks(g.nodes[id]);
      assert forall x | x in n.children :: x in g.nodes && g.nodes[x].parent == Some(id);
    }
    forall q | q in g.nodes && q != id
      ensures NodeValid(g.nodes, q)
    {
      assert NodeValid(f.nodes, q);
      assert id !in f.nodes[q].children;
      OwedFrame(f.nodes, g.nodes, f.nodes[q].children);
      NodeValidFrame(f.nodes, g.nodes, q);
    }
  }

  /** Ending a child pays off what it owed: the parent's credit grows by exactly
      the amount its outstanding children owe shrinks by. */
  lemma EndChildKeepsValid(f: Forest, id: Id)
    requires Valid(f) && id in f.nodes && !f.nodes[id].done && f.nodes[id].parent.Some?
    ensures Valid(End(f, id))
  {
    var g := End(f, id);
    var p := f.nodes[id].parent.value;
    EndChildSelf(f, id);
    EndChildParent(f, id);
    forall q | q in g.nodes && q != id && q != p
      ensures NodeValid(g.nodes, q)
    {
      EndChildOther(f, id, q);
    }
  }

  /** The effect of ending an unfinished child, spelled out. */
  lemma EndChildEffect(f: Forest, id: Id)
    requires Valid(f) && id in f.nodes && !f.nodes[id].done && f.nodes[id].parent.Some?
    ensures var n := f.nodes[id];
      var p := n.parent.value;
      var pn := f.nodes[p];
      var g := End(f, id);
      && p != id && p in f.nodes
      && (forall x | x != id :: OwedBy(g.nodes, x) == OwedBy(f.nodes, x))
      && OwedBy(g.nodes, id) == 0.0
      && OwedBy(f.nodes, id) == n.totalOfParent - n.sentToParent
  {
  }

  lemma EndChildSelf(f: Forest, id: Id)
    requires Valid(f) && id in f.nodes && !f.nodes[id].done && f.nodes[id].parent.Some?
    ensures NodeValid(End(f, id).nodes, id)
  {
    var g := End(f, id);
    var n := f.nodes[id];
    var p := n.parent.value;
    EndChildEffect(f, id);
    assert NodeValid(f.nodes, id);
    assert p !in n.children && id !in n.children;
    OwedFrame(f.nodes, g.nodes, n.children);
    assert LocalBooks(g.nodes[id]) by {
      ProportionalFields(n, g.nodes[id]);
    }
    assert forall x | x in n.children :: x in g.nodes && g.nodes[x].parent == Some(id);
  }

  lemma EndChildParent(f: Forest, id: Id)
    requires Valid(f) && id in f.nodes && !f.nodes[id].done && f.nodes[id].parent.Some?
    ensures NodeValid(End(f, id).nodes, f.nodes[id].parent.value)
  {
    var g := End(f, id);
    var n := f.nodes[id];
    var p := n.parent.value;
    var pn := f.nodes[p];
    EndChildEffect(f, id);
    assert NodeValid(f.nodes, id);
    assert NodeValid(f.nodes, p);
    OwedUpdate(f.nodes, g.nodes, pn.children, id);
    assert LocalBooks(g.nodes[p]) by {
      ProportionalFields(pn, g.nodes[p]);
    }
    assert forall x | x in pn.children :: x in g.nodes && g.nodes[x].parent == Some(p);
  }

  lemma EndChildOther(f: Forest, id: Id, q: Id)
    requires Valid(f) && id in f.nodes && !f.nodes[id].done && f.nodes[id].parent.Some?
    requires q in f.nodes && q != id && q != f.nodes[id].parent.value
    ensures NodeValid(End(f, id).nodes, q)
  {
    var g := End(f, id);
    EndChildEffect(f, id);
    assert NodeValid(f.nodes, q);
    NodeValidFrame(f.nodes, g.nodes, q);
  }

  // ----- worked() never decreases -----

  /** No monitor's `worked()` goes down when a monitor starts. */
  lemma StartKeepsWorked(f: Forest, id: Id)
    requires id in f.nodes
    ensures forall q | q in f.nodes :: Worked(Start(f, id).nodes[q]) == Worked(f.nodes[q])
  {
  }

  /** Ending a monitor lowers no monitor's `worked()`: the parent gains the
      unsent rest of the slice, which a valid forest keeps non-negative. */
  lemma EndKeepsWorked(f: Forest, id: Id)
    requires Valid(f) && id in f.nodes
    ensures forall q | q in f.nodes :: Worked(End(f, id).nodes[q]) >= Worked(f.nodes[q])
  {
    assert NodeValid(f.nodes, id);
  }

  /** Splitting changes no existing monitor's `worked()`. */
  lemma SplitKeepsWorked(f: Forest, id: Id, amount: real)
    requires WellFormed(f) && id in f.nodes && amount >= 0.0
    ensures forall q | q in f.nodes :: Worked(Split(f, id, amount).0.nodes[q]) == Worked(f.nodes[q])
  {
  }

  /** Rescaling changes no monitor's `worked()`: only a pending monitor is
      rescaled, and in a valid forest it has worked nothing yet. */
  lemma AdjustTotalKeepsWorked(f: Forest, id: Id, newTotal: real)
    requires Valid(f) && id in f.nodes && newTotal >= 0.0
    requires !f.nodes[id].started && !f.nodes[id].done && f.nodes[id].children == [] ==>
      f.nodes[id].total > 0.0
    ensures forall q | q in f.nodes :: Worked(AdjustTotal(f, id, newTotal).0.nodes[q]) == Worked(f.nodes[q])
  {
    assert NodeValid(f.nodes, id);
  }
}

=== FILE: monitor.dfy ===
/**
  The bookkeeping of one ProgressMonitor tree (lib/progress-monitor.js).

  Monitors live in an arena, `Forest`, keyed by an identity `Id`; the JavaScript
  object references become these identities. Every operation is a pure function
  from the forest before the call to the forest after it (and, for `split` and
  `adjustTotal`, the value the source returns). The monitor's own event channel
  is not modelled: `emit("start")` has the effect of `Start` (`End` and
  `Record` set the same flag in place), and the parent's
  `emit("work", v, true)` is a call of `Work(.., v, true)` on the parent.
*/
module ProgressMonitor {
  import opened Wrappers

  type Id = nat

  /** One monitor's fields. `totalOfParent` is 0 for a root, where the source
      leaves it undefined and never reads it. */
  datatype Node = Node(
    total: real,
    currentWorked: real,
    childTotal: real,
    childWorked: real,
    parent: Option<Id>,
    totalOfParent: real,
    sentToParent: real,
    children: seq<Id>,
    started: bool,
    done: bool)

  /** Every monitor created so far; `next` is the identity the next one receives. */
  datatype Forest = Forest(nodes: map<Id, Node>, next: Id)

  /** The forest before any monitor exists. */
  const Empty := Forest(map[], 0)

  /** Capacity neither spent directly nor handed to children. */
  function Available(n: Node): real {
    n.total - n.childTotal - n.currentWorked
  }

  /** Progress in the monitor's own scale: its direct work plus the credit its children sent. */
  function Worked(n: Node): real {
    n.childWorked + n.currentWorked
  }

  /** The state the constructor builds, with the parent link that `split` sets afterwards. */
  function NewNode(total: real, parent: Option<Id>, share: real): Node {
    Node(total, 0.0, 0.0, 0.0, parent, share, 0.0, [], false, false)
  }

  /** The shape every operation relies on: identities below `next`, parents that
      exist and were created earlier, and non-negative direct work and allocation
      (so a monitor with spare capacity has a positive total to divide by). */
  ghost predicate WellFormed(f: Forest) {
    forall id {:trigger f.nodes[id]} | id in f.nodes ::
      && id < f.next
      && f.nodes[id].currentWorked >= 0.0
      && f.nodes[id].childTotal >= 0.0
      && (f.nodes[id].parent.Some? ==>
            f.nodes[id].parent.value in f.nodes && f.nodes[id].parent.value < id)
  }

  /** The fields `work` never changes on any monitor. */
  predicate SameAllocation(a: Node, b: Node) {
    && a.total == b.total
    && a.childTotal == b.childTotal
    && a.parent == b.parent
    && a.totalOfParent == b.totalOfParent
    && a.children == b.children
    && a.done == b.done
  }

  /** `new ProgressMonitor(total)`: a pending root with nothing worked. */
  function Create(f: Forest, total: real): (r: (Forest, Id))
    requires WellFormed(f)
    ensures WellFormed(r.0)
    ensures r.1 !in f.nodes && r.0.nodes.Keys == f.nodes.Keys + {r.1}
    ensures forall q | q in f.nodes :: r.0.nodes[q] == f.nodes[q]
    ensures var n := r.0.nodes[r.1];
      && n.total == total && n.parent.None? && n.children == []
      && n.currentWorked == 0.0 && n.childTotal == 0.0 && n.childWorked == 0.0 && n.sentToParent == 0.0
      && !n.started && !n.done
  {
    (Forest(f.nodes[f.next := NewNode(total, None, 0.0)], f.next + 1), f.next)
  }

  /** `start`: sets the started flag; nothing else changes, and a second start is a no-op. */
  function Start(f: Forest, id: Id): (r: Forest)
    requires id in f.nodes
    ensures r.next == f.next && r.nodes.Keys == f.nodes.Keys
    ensures r.nodes[id] == f.nodes[id].(started := true)
    ensures forall q | q in f.nodes && q != id :: r.nodes[q] == f.nodes[q]
    ensures f.nodes[id].started ==> r == f
  {
    if f.nodes[id].started then f
    else f.(nodes := f.nodes[id := f.nodes[id].(started := true)])
  }

  /** `end`: starts the monitor if needed, credits the parent with the part of
      its slice not yet sent, and marks the monitor done. */
  function End(f: Forest, id: Id): (r: Forest)
    requires WellFormed(f) && id in f.nodes
    ensures WellFormed(r) && r.next == f.next && r.nodes.Keys == f.nodes.Keys
    ensures r.nodes[id].done
    ensures f.nodes[id].done ==> r == f
    ensures !f.nodes[id].done ==> r.nodes[id] == f.nodes[id].(started := true, done := true)
    ensures !f.nodes[id].done && f.nodes[id].parent.Some? ==>
      var p := f.nodes[id].parent.value;
      r.nodes[p] == f.nodes[p].(childWorked := f.nodes[p].childWorked
                                  + f.nodes[id].totalOfParent - f.nodes[id].sentToParent)
    ensures forall q | q in f.nodes && q != id && Some(q) != f.nodes[id].parent :: r.nodes[q] == f.nodes[q]
  {
    var n := f.nodes[id];
    if n.done then f
    else
      // `emit("start")` when not yet started, then done
      var ended := n.(started := true, done := true);
      ReplaceKeepsShape(f, id, ended);
      match n.parent
      case None => f.(nodes := f.nodes[id := ended])
      case Some(p) =>
        var pn := f.nodes[p];
        var paid := pn.(childWorked := pn.childWorked + (n.totalOfParent - n.sentToParent));
        ReplaceKeepsShape(f, p, paid);
        ReplaceKeepsShape(f.(nodes := f.nodes[p := paid]), id, ended);
        f.(nodes := f.nodes[p := paid][id := ended])
  }

  /** `split(amount)`: carves a new child out of the monitor's remaining
      capacity, or returns no child and changes nothing. */
  function Split(f: Forest, id: Id, amount: real): (r: (Forest, Option<Id>))
    requires WellFormed(f) && id in f.nodes
    requires amount >= 0.0
    ensures WellFormed(r.0)
    ensures r.1.None? <==> f.nodes[id].done || amount > Available(f.nodes[id])
    ensures r.1.None? ==> r.0 == f
    ensures r.1.Some? ==>
      var c := r.1.value;
      var n := f.nodes[id];
      && c !in f.nodes && r.0.nodes.Keys == f.nodes.Keys + {c} && r.0.next > f.next
      && r.0.nodes[c] == NewNode(amount, Some(id), amount)
      && r.0.nodes[id] == n.(childTotal := n.childTotal + amount, children := n.children + [c])
      && forall q | q in f.nodes && q != id :: r.0.nodes[q] == f.nodes[q]
  {
    var n := f.nodes[id];
    if n.done then (f, None)
    else if amount > Available(n) then (f, None)
    else
      var c := f.next;
      var grown := n.(childTotal := n.childTotal + amount, children := n.children + [c]);
      (Forest(f.nodes[id := grown][c := NewNode(amount, Some(id), amount)], f.next + 1), Some(c))
  }

  /** `ProgressMonitor.adjustTotal(monitor, newTotal)`: rescales a pending,
      childless monitor, keeping the fraction of it already worked. */
  function AdjustTotal(f: Forest, id: Id, newTotal: real): (r: (Forest, Option<Id>))
    requires WellFormed(f) && id in f.nodes
    requires newTotal >= 0.0
    requires !f.nodes[id].started && !f.nodes[id].done && f.nodes[id].children == [] ==>
      f.nodes[id].total > 0.0
    ensures WellFormed(r.0) && r.0.next == f.next && r.0.nodes.Keys == f.nodes.Keys
    ensures r.1.None? <==> f.nodes[id].started || f.nodes[id].done || |f.nodes[id].children| > 0
    ensures r.1.None? ==> r.0 == f
    ensures r.1.Some? ==>
      var n := f.nodes[id];
      var m := r.0.nodes[id];
      r.1.value == id && m == Rescaled(n, newTotal)
    ensures r.0.nodes == f.nodes[id := r.0.nodes[id]]
  {
    var n := f.nodes[id];
    if n.done || n.started then (f, None)
    else if |n.children| > 0 then (f, None)
    else (f.(nodes := f.nodes[id := Rescaled(n, newTotal)]), Some(id))
  }

  /** The accepted rescale of one monitor: the new total replaces the old one,
      and the work done so far is scaled by `newTotal / total`, so that the
      fraction already worked, `currentWorked / total`, is kept. */
  function Rescaled(n: Node, newTotal: real): (m: Node)
    requires n.total > 0.0
    ensures m == n.(total := newTotal, currentWorked := m.currentWorked)
    ensures m.currentWorked * n.total == n.currentWorked * newTotal
    ensures n.currentWorked >= 0.0 && newTotal >= 0.0 ==> m.currentWorked >= 0.0
  {
    var scale := newTotal / n.total;
    ScaleBack(n.currentWorked, n.total, newTotal);
    n.(total := newTotal, currentWorked := n.currentWorked * scale)
  }

  /** Scaling by `t' / t` and then by `t` is scaling by `t'`; scaling keeps
      a non-negative amount non-negative. */
  lemma ScaleBack(w: real, t: real, t': real)
    requires t > 0.0
    ensures w * (t' / t) * t == w * t'
    ensures w >= 0.0 && t' >= 0.0 ==> w * (t' / t) >= 0.0
  {
  }

  /** The report ceiling of `work`: the unused capacity for direct work, the
      unconsumed child slices for child-originated work. */
  function Ceiling(n: Node, fromChild: bool): real {
    if fromChild then n.childTotal - n.childWorked else Available(n)
  }

  /** The part of `work` that reads and writes the receiving monitor only: the
      guard, the lazy start, the clamp and the record. Returns the monitor after
      the call and the amount recorded (0 when nothing is). */
  function Record(n: Node, value: real, fromChild: bool): (r: (Node, real))
    ensures n.done || Worked(n) >= n.total ==> r == (n, 0.0)
    ensures !n.done && Worked(n) < n.total ==> r.0.started
    ensures r.0 == n.(started := r.0.started, currentWorked := r.0.currentWorked, childWorked := r.0.childWorked)
    ensures !n.started && !r.0.started ==> r.0 == n
    ensures r.0.done == n.done
    ensures fromChild ==> r.0.currentWorked == n.currentWorked && r.0.childWorked == n.childWorked + r.1
    ensures !fromChild ==> r.0.childWorked == n.childWorked && r.0.currentWorked == n.currentWorked + r.1
    // the recorded amount is the report clamped to the ceiling, and never negative
    ensures 0.0 <= r.1 && (r.1 > 0.0 ==> r.1 <= value && r.1 <= Ceiling(n, fromChild))
    ensures !n.done && Worked(n) < n.total ==>
      && (0.0 < value <= Ceiling(n, fromChild) ==> r.1 == value)
      && (value > Ceiling(n, fromChild) >= 0.0 ==> r.1 == Ceiling(n, fromChild))
    // a report clamped to nothing changes nothing but the started flag
    ensures r.1 == 0.0 ==> r.0 == n.(started := r.0.started)
    // the clamp keeps direct work within the unallocated capacity, and child
    // credit within what was allocated to children
    ensures !fromChild && n.currentWorked + n.childTotal <= n.total ==>
      r.0.currentWorked + r.0.childTotal <= r.0.total
    ensures fromChild && n.childWorked <= n.childTotal ==> r.0.childWorked <= r.0.childTotal
  {
    if n.done || Worked(n) >= n.total then (n, 0.0)
    else
      var n1 := n.(started := true);
      var ceiling := Ceiling(n1, fromChild);
      var v := if value > ceiling then ceiling else value;
      if v <= 0.0 then (n1, 0.0)
      else if fromChild then (n1.(childWorked := n1.childWorked + v), v)
      else (n1.(currentWorked := n1.currentWorked + v), v)
  }

  /** `value` of the monitor's own work, expressed in its parent's scale. */
  function Share(n: Node, value: real): real
    requires n.total != 0.0
  {
    value * (n.totalOfParent / n.total)
  }

  /** `updateParent(value)`: converts direct work into the parent's scale, adds
      it to what was sent, and reports it to the parent as child work. */
  function UpdateParent(f: Forest, id: Id, value: real): (r: Forest)
    requires WellFormed(f) && id in f.nodes
    requires f.nodes[id].parent.Some? ==> f.nodes[id].total != 0.0
    ensures WellFormed(r) && r.next == f.next && r.nodes.Keys == f.nodes.Keys
    ensures f.nodes[id].parent.None? ==> r == f
    ensures f.nodes[id].parent.Some? ==>
      r.nodes == f.nodes[id := f.nodes[id].(sentToParent := f.nodes[id].sentToParent + Share(f.nodes[id], value))]
                        [f.nodes[id].parent.value := Record(f.nodes[f.nodes[id].parent.value], Share(f.nodes[id], value), true).0]
    decreases 1
  {
    var n := f.nodes[id];
    match n.parent
    case None => f
    case Some(p) =>
      var share := Share(n, value);
      var f1 := f.(nodes := f.nodes[id := n.(sentToParent := n.sentToParent + share)]);
      assert f1.nodes[p] == f.nodes[p];
      Work(f1, p, share, true)
  }

  /** Replacing a monitor by one with the same parent and non-negative
      direct work and allocation keeps the shape. */
  lemma ReplaceKeepsShape(f: Forest, id: Id, m: Node)
    requires WellFormed(f) && id in f.nodes
    requires m.parent == f.nodes[id].parent && m.currentWorked >= 0.0 && m.childTotal >= 0.0
    ensures WellFormed(f.(nodes := f.nodes[id := m]))
  {
  }

  /** A second write to the same key overwrites the first. */
  lemma Overwrite(nodes: map<Id, Node>, id: Id, a: Node, b: Node)
    ensures nodes[id := a][id := b] == nodes[id := b]
  {
  }

  /** `work(value, fromChild)`: records the report on the receiving monitor and,
      for a positive direct report on a monitor with a parent, forwards it
      (what the forwarding does is stated by `WorkForwards`). Child-originated
      work is recorded and goes no further. */
  function Work(f: Forest, id: Id, value: real, fromChild: bool): (r: Forest)
    requires WellFormed(f) && id in f.nodes
    ensures WellFormed(r) && r.next == f.next && r.nodes.Keys == f.nodes.Keys
    ensures fromChild || f.nodes[id].parent.None? ==>
      r.nodes == f.nodes[id := Record(f.nodes[id], value, fromChild).0]
    ensures !fromChild && Record(f.nodes[id], value, false).1 <= 0.0 ==>
      r.nodes == f.nodes[id := Record(f.nodes[id], value, false).0]
    decreases if fromChild then 0 else 2
  {
    var n := f.nodes[id];
    var (m, v) := Record(n, value, fromChild);
    ReplaceKeepsShape(f, id, m);
    var f1 := f.(nodes := f.nodes[id := m]);
    if v > 0.0 && !fromChild then UpdateParent(f1, id, v)
    else f1
  }

  /** A direct report on a monitor with a parent that records `v > 0` adds
      `v * totalOfParent / total` to what the monitor has sent, and its parent
      records that same amount as child-originated work. */
  lemma WorkForwards(f: Forest, id: Id, value: real)
    requires WellFormed(f) && id in f.nodes && f.nodes[id].parent.Some?
    requires Record(f.nodes[id], value, false).1 > 0.0
    ensures var n := f.nodes[id];
      var p := n.parent.value;
      var (m, v) := Record(n, value, false);
      && n.total > 0.0
      && Work(f, id, value, false).nodes
         == f.nodes[id := m.(sentToParent := n.sentToParent + Share(n, v))]
                   [p := Record(f.nodes[p], Share(n, v), true).0]
  {
    var n := f.nodes[id];
    var (m, v) := Record(n, value, false);
    var f1 := f.(nodes := f.nodes[id := m]);
    Overwrite(f.nodes, id, m, m.(sentToParent := n.sentToParent + Share(n, v)));
    assert Share(m, v) == Share(n, v) && m.sentToParent == n.sentToParent;
    assert f1.nodes[n.parent.value] == f.nodes[n.parent.value];
  }
}

=== FILE: propagation.dfy ===
/**
  Direct work and its one-level propagation.

  A direct report is recorded on the monitor that receives it and, when that
  monitor has a parent, rescaled into the parent's scale and recorded there as
  child work. The parent does not forward it any further. This module proves
  that such a report keeps the books of `Accounting`, that a parent that is not
  done receives exactly the rescaled amount, and that nothing beyond the parent
  moves. A parent that is done receives nothing, while the sender still counts
  the share as sent (`DoneParentDropsShare`).
*/
module Propagation {
  import opened Wrappers
  import opened ProgressMonitor
  import opened Accounting

  // ----- arithmetic of the rescaling -----

  /** The share sent for `value` is `value` in the parent's scale. */
  lemma ShareScales(n: Node, value: real)
    requires n.total > 0.0
    ensures Share(n, value) * n.total == value * n.totalOfParent
    ensures value >= 0.0 && n.totalOfParent >= 0.0 ==> Share(n, value) >= 0.0
  {
  }

  /** A sent amount proportional to work within the total stays within the slice. */
  lemma ProportionBound(sent: real, total: real, worked: real, slice: real)
    requires total > 0.0 && slice >= 0.0 && 0.0 <= worked <= total
    requires sent * total == worked * slice
    ensures sent <= slice
  {
    assert (slice - sent) * total == (total - worked) * slice;
    assert (total - worked) * slice >= 0.0;
  }

  // ----- the sender -----

  /** A direct report on a non-root monitor that records `v > 0` leaves the
      sender's own books balanced after it adds the share it sends. */
  lemma SenderBooks(n: Node, value: real)
    requires LocalBooks(n) && n.parent.Some? && n.total > 0.0
    requires Record(n, value, false).1 > 0.0
    ensures var (m, v) := Record(n, value, false);
      var s := Share(n, v);
      && 0.0 <= s && n.sentToParent + s <= n.totalOfParent
      && LocalBooks(m.(sentToParent := n.sentToParent + s))
  {
    var (m, v) := Record(n, value, false);
    var s := Share(n, v);
    ShareScales(n, v);
    assert (n.sentToParent + s) * n.total == m.currentWorked * n.totalOfParent;
    ProportionBound(n.sentToParent + s, n.total, m.currentWorked, n.totalOfParent);
  }

  /** A direct report that records nothing, or lands on a root, keeps the
      receiving monitor's books. */
  lemma UnforwardedBooks(n: Node, value: real)
    requires LocalBooks(n)
    requires n.parent.Some? ==> Record(n, value, false).1 == 0.0
    ensures LocalBooks(Record(n, value, false).0)
  {
  }

  // ----- the parent -----

  /** A parent that is not done takes the whole share an unfinished child
      still owes it: the guard passes and the clamp does not bind. */
  lemma ParentTakesShare(f: Forest, p: Id, c: Id, s: real)
    requires Valid(f) && p in f.nodes && !f.nodes[p].done
    requires c in f.nodes[p].children
    requires 0.0 < s <= OwedBy(f.nodes, c)
    ensures Record(f.nodes[p], s, true).1 == s
  {
    var pn := f.nodes[p];
    ChildrenOweNonNegative(f, p);
    OwedCovers(f.nodes, pn.children, c);
    assert NodeValid(f.nodes, p);
    assert Ceiling(pn, true) == Owed(f.nodes, pn.children);
    assert Worked(pn) < pn.total;
  }

  // ----- the forest -----

  /** Every direct report keeps the books of the whole forest. */
  lemma WorkKeepsValid(f: Forest, id: Id, value: real)
    requires Valid(f) && id in f.nodes
    ensures Valid(Work(f, id, value, false))
  {
    var n := f.nodes[id];
    var (m, v) := Record(n, value, false);
    assert NodeValid(f.nodes, id);
    if n.parent.Some? && v > 0.0 {
      ForwardedKeepsValid(f, id, value);
    } else {
      UnforwardedBooks(n, value);
      ReplaceKeepsValid(f, id, m, Work(f, id, value, false));
    }
  }

  /** The state a forwarded direct report leads to, spelled out: the sender
      records `v` and sends `s`, and the parent records `s` as child work. */
  lemma ForwardedEffect(f: Forest, id: Id, value: real)
    requires Valid(f) && id in f.nodes && f.nodes[id].parent.Some?
    requires Record(f.nodes[id], value, false).1 > 0.0
    ensures var n := f.nodes[id];
      var p := n.parent.value;
      var (m, v) := Record(n, value, false);
      var s := Share(n, v);
      var g := Work(f, id, value, false);
      && !n.done && n.total > 0.0 && p in f.nodes && p < id
      && 0.0 <= s && n.sentToParent + s <= n.totalOfParent
      && LocalBooks(m.(sentToParent := n.sentToParent + s))
      && g.nodes == f.nodes[id := m.(sentToParent := n.sentToParent + s)]
                           [p := Record(f.nodes[p], s, true).0]
      && (forall x | x != id :: OwedBy(g.nodes, x) == OwedBy(f.nodes, x))
      && OwedBy(g.nodes, id) == OwedBy(f.nodes, id) - s
  {
    var n := f.nodes[id];
    assert NodeValid(f.nodes, id);
    WorkForwards(f, id, value);
    SenderBooks(n, value);
  }

  lemma ForwardedKeepsValid(f: Forest, id: Id, value: real)
    requires Valid(f) && id in f.nodes && f.nodes[id].parent.Some?
    requires Record(f.nodes[id], value, false).1 > 0.0
    ensures Valid(Work(f, id, value, false))
  {
    var g := Work(f, id, value, false);
    var p := f.nodes[id].parent.value;
    ForwardedSelf(f, id, value);
    ForwardedParent(f, id, value);
    forall q | q in g.nodes && q != id && q != p
      ensures NodeValid(g.nodes, q)
    {
      ForwardedOther(f, id, value, q);
    }
  }

  lemma ForwardedSelf(f: Forest, id: Id, value: real)
    requires Valid(f) && id in f.nodes && f.nodes[id].parent.Some?
    requires Record(f.nodes[id], value, false).1 > 0.0
    ensures NodeValid(Work(f, id, value, false).nodes, id)
  {
    var g := Work(f, id, value, false);
    var n := f.nodes[id];
    var p := n.parent.value;
    ForwardedEffect(f, id, value);
    assert NodeValid(f.nodes, id);
    assert p !in n.children && id !in n.children by {
      forall c | c in n.children
        ensures c > id
      {
        assert f.nodes[c].parent == Some(id);
      }
    }
    OwedFrame(f.nodes, g.nodes, n.children);
    assert forall x | x in n.children :: x in g.nodes && g.nodes[x].parent == Some(id);
  }

  lemma ForwardedParent(f: Forest, id: Id, value: real)
    requires Valid(f) && id in f.nodes && f.nodes[id].parent.Some?
    requires Record(f.nodes[id], value, false).1 > 0.0
    ensures NodeValid(Work(f, id, value, false).nodes, f.nodes[id].parent.value)
  {
    var g := Work(f, id, value, false);
    var n := f.nodes[id];
    var p := n.parent.value;
    var pn := f.nodes[p];
    var (m, v) := Record(n, value, false);
    var s := Share(n, v);
    ForwardedEffect(f, id, value);
    assert NodeValid(f.nodes, id);
    assert NodeValid(f.nodes, p);
    OwedUpdate(f.nodes, g.nodes, pn.children, id);
    if !pn.done && s > 0.0 {
      ParentTakesShare(f, p, id, s);
    }
    assert LocalBooks(g.nodes[p]) by {
      ProportionalFields(pn, g.nodes[p]);
    }
    assert forall x | x in pn.children :: x in g.nodes && g.nodes[x].parent == Some(p);
  }

  lemma ForwardedOther(f: Forest, id: Id, value: real, q: Id)
    requires Valid(f) && id in f.nodes && f.nodes[id].parent.Some?
    requires Record(f.nodes[id], value, false).1 > 0.0
    requires q in f.nodes && q != id && q != f.nodes[id].parent.value
    ensures NodeValid(Work(f, id, value, false).nodes, q)
  {
    var g := Work(f, id, value, false);
    ForwardedEffect(f, id, value);
    assert NodeValid(f.nodes, q);
    assert NodeValid(f.nodes, id);
    NodeValidFrame(f.nodes, g.nodes, q);
  }

  // ----- reach and exactness -----

  /** Work never ends a monitor or changes its allocation, and reaches no
      further than the receiving monitor and, for direct work, its parent:
      child-originated work stays where it is recorded. */
  lemma WorkReach(f: Forest, id: Id, value: real, fromChild: bool)
    requires WellFormed(f) && id in f.nodes
    ensures var r := Work(f, id, value, fromChild);
      && (forall q | q in f.nodes :: SameAllocation(r.nodes[q], f.nodes[q]))
      && (forall q | q in f.nodes && q != id && (fromChild || Some(q) != f.nodes[id].parent) ::
            r.nodes[q] == f.nodes[q])
  {
  }

  /** A direct report that fits the monitor's spare capacity is recorded in
      full, and its parent, when not done, records exactly its rescaled share
      as child work. */
  lemma PropagationExact(f: Forest, id: Id, value: real)
    requires Valid(f) && id in f.nodes && f.nodes[id].parent.Some?
    requires !f.nodes[id].done && !f.nodes[f.nodes[id].parent.value].done
    requires 0.0 < value <= Available(f.nodes[id])
    ensures var n := f.nodes[id];
      var p := n.parent.value;
      var g := Work(f, id, value, false);
      && n.total > 0.0 && p in g.nodes && p != id
      && Worked(g.nodes[id]) == Worked(n) + value
      && Worked(g.nodes[p]) == Worked(f.nodes[p]) + Share(n, value)
  {
    PropagationEffect(f, id, value);
  }

  /** The states of the sender and its parent after such a report. */
  lemma PropagationEffect(f: Forest, id: Id, value: real)
    requires Valid(f) && id in f.nodes && f.nodes[id].parent.Some?
    requires !f.nodes[id].done && !f.nodes[f.nodes[id].parent.value].done
    requires 0.0 < value <= Available(f.nodes[id])
    ensures var n := f.nodes[id];
      var p := n.parent.value;
      var pn := f.nodes[p];
      var g := Work(f, id, value, false);
      && n.total > 0.0 && p in g.nodes && p != id
      && g.nodes[id] == n.(started := true, currentWorked := n.currentWorked + value,
                           sentToParent := n.sentToParent + Share(n, value))
      && g.nodes[p] == pn.(started := g.nodes[p].started,
                           childWorked := pn.childWorked + Share(n, value))
  {
    var n := f.nodes[id];
    var p := n.parent.value;
    var pn := f.nodes[p];
    WorkedWithinTotal(f, id);
    var m := Record(n, value, false).0;
    assert Record(n, value, false).1 == value;
    assert m == n.(started := true, currentWorked := n.currentWorked + value);
    ForwardedEffect(f, id, value);
    var s := Share(n, value);
    assert NodeValid(f.nodes, id);
    if s > 0.0 {
      ParentTakesShare(f, p, id, s);
    }
    var pm := Record(pn, s, true).0;
    assert Record(pn, s, true).1 == s;
    assert pm == pn.(started := pm.started, childWorked := pn.childWorked + s);
  }

  /** No report, direct or from a child, lowers any monitor's `worked()`: the
      receiver gains what it records, and a forwarding sender's parent gains
      what it records of the share. */
  lemma WorkKeepsWorked(f: Forest, id: Id, value: real, fromChild: bool)
    requires WellFormed(f) && id in f.nodes
    ensures var g := Work(f, id, value, fromChild);
      forall q | q in f.nodes :: Worked(g.nodes[q]) >= Worked(f.nodes[q])
  {
    var n := f.nodes[id];
    WorkReach(f, id, value, fromChild);
    if !fromChild && n.parent.Some? && Record(n, value, false).1 > 0.0 {
      WorkForwards(f, id, value);
    }
  }

  /** A parent that has ended drops the share a child forwards, yet the child
      counts it as sent; when the child ends, the parent is paid only what the
      child has not sent, so the dropped share is never credited. */
  lemma DoneParentDropsShare(f: Forest, id: Id, value: real)
    requires WellFormed(f) && id in f.nodes && f.nodes[id].parent.Some?
    requires f.nodes[f.nodes[id].parent.value].done && !f.nodes[id].done
    requires Record(f.nodes[id], value, false).1 > 0.0
    ensures var n := f.nodes[id];
      var p := n.parent.value;
      var s := Share(n, Record(n, value, false).1);
      var g := Work(f, id, value, false);
      && g.nodes[p] == f.nodes[p]
      && g.nodes[id].sentToParent == n.sentToParent + s
      && End(g, id).nodes[p].childWorked
         == f.nodes[p].childWorked + n.totalOfParent - n.sentToParent - s
  {
    var n := f.nodes[id];
    var p := n.parent.value;
    var s := Share(n, Record(n, value, false).1);
    WorkForwards(f, id, value);
    assert Record(f.nodes[p], s, true).0 == f.nodes[p];
    var g := Work(f, id, value, false);
    assert g.nodes[id].parent == Some(p) && g.nodes[id].totalOfParent == n.totalOfParent;
  }
}

=== FILE: scenario.dfy ===
/**
  The demonstration program examples/simple.js over the forest model: a root
  of 100 units is split twice into slices of 50; each slice is rescaled to 100
  units, worked one unit at a time and ended; finally the root is ended. The
  root then reports its whole total as worked, all of it credited by its
  children.
*/
module Scenario {
  import opened Wrappers
  import opened ProgressMonitor
  import opened Accounting
  import opened Propagation

  /** Rescaling a fresh slice to 100 units is accepted and leaves it with
      nothing worked. */
  lemma FreshSliceRescaled(f: Forest, c: Id)
    requires Valid(f) && c in f.nodes
    requires var n := f.nodes[c]; !n.started && !n.done && n.children == [] && n.total > 0.0
    ensures var r := AdjustTotal(f, c, 100.0);
      && r.1 == Some(c) && Valid(r.0)
      && r.0.nodes == f.nodes[c := f.nodes[c].(total := 100.0, currentWorked := 0.0)]
  {
    var r := AdjustTotal(f, c, 100.0);
    AdjustTotalKeepsValid(f, c, 100.0);
    assert NodeValid(r.0.nodes, c);
  }

  /** Monitor `c` of `g` is monitor `c` of `f` after `dw` more units of direct
      work, and its parent has received as child work exactly what `c` sent
      meanwhile; nothing else has moved. */
  ghost predicate UnitsReported(f: Forest, g: Forest, c: Id, dw: real)
    requires c in f.nodes && f.nodes[c].parent.Some?
  {
    var n := f.nodes[c];
    var p := n.parent.value;
    && Valid(g) && g.nodes.Keys == f.nodes.Keys
    && g.nodes[c] == n.(started := g.nodes[c].started, currentWorked := n.currentWorked + dw,
                        sentToParent := g.nodes[c].sentToParent)
    && g.nodes[p] == f.nodes[p].(started := g.nodes[p].started,
                                 childWorked := f.nodes[p].childWorked
                                                + (g.nodes[c].sentToParent - n.sentToParent))
    && forall q | q in f.nodes && q != c && q != p :: g.nodes[q] == f.nodes[q]
  }

  /** One more unit, while there is room for it, is recorded, and what it
      sends reaches the parent. */
  lemma UnitStep(f: Forest, g: Forest, c: Id, dw: real)
    requires Valid(f) && c in f.nodes && f.nodes[c].parent.Some?
    requires !f.nodes[c].done && !f.nodes[f.nodes[c].parent.value].done
    requires UnitsReported(f, g, c, dw)
    requires dw + 1.0 <= Available(f.nodes[c])
    ensures UnitsReported(f, Work(g, c, 1.0, false), c, dw + 1.0)
  {
    var n := f.nodes[c];
    var p := n.parent.value;
    var g1 := Work(g, c, 1.0, false);
    PropagationEffect(g, c, 1.0);
    WorkKeepsValid(g, c, 1.0);
    WorkReach(g, c, 1.0, false);
    assert g.nodes[c].parent == n.parent;
    forall q | q in f.nodes && q != c && q != p
      ensures g1.nodes[q] == f.nodes[q]
    {
      assert g1.nodes[q] == g.nodes[q];
    }
  }

  /** `k` direct reports of one unit each on monitor `c`, with room for all
      of them: every unit is recorded, and the parent, not yet ended,
      receives as child work exactly what `c` sends; nothing else moves. */
  method ReportUnits(f: Forest, c: Id, k: nat) returns (g: Forest)
    requires Valid(f) && c in f.nodes && f.nodes[c].parent.Some?
    requires !f.nodes[c].done && !f.nodes[f.nodes[c].parent.value].done
    requires k as real <= Available(f.nodes[c])
    ensures UnitsReported(f, g, c, k as real)
  {
    g := f;
    var i := 0;
    while i < k
      invariant 0 <= i <= k
      invariant UnitsReported(f, g, c, i as real)
    {
      UnitStep(f, g, c, i as real);
      g := Work(g, c, 1.0, false);
      i := i + 1;
    }
  }

  /** The demo's `work(monitor)` on a fresh slice: rescale it to 100 units,
      report one unit 100 times, end it. The slice ends with its whole total
      worked, and its parent, not yet ended, holds credit for the whole
      slice; every other monitor is left alone. */
  method WorkLoop(f: Forest, c: Id) returns (g: Forest)
    requires Valid(f) && c in f.nodes && f.nodes[c].parent.Some?
    requires !f.nodes[f.nodes[c].parent.value].done
    requires var n := f.nodes[c]; !n.started && !n.done && n.children == [] && n.total > 0.0
    ensures Valid(g) && g.nodes.Keys == f.nodes.Keys
    ensures g.nodes[c].done && g.nodes[c].currentWorked == g.nodes[c].total == 100.0
    ensures var p := f.nodes[c].parent.value;
      g.nodes[p] == f.nodes[p].(started := g.nodes[p].started,
                                childWorked := f.nodes[p].childWorked + f.nodes[c].totalOfParent)
    ensures forall q | q in f.nodes && q != c && Some(q) != f.nodes[c].parent :: g.nodes[q] == f.nodes[q]
  {
    assert NodeValid(f.nodes, c);
    var (f1, sub) := AdjustTotal(f, c, 100.0);
    FreshSliceRescaled(f, c);
    var m := sub.value;
    var f2 := ReportUnits(f1, m, 100);
    // what was sent is proportional to the work done: all of it
    assert NodeValid(f2.nodes, m);
    EndKeepsValid(f2, m);
    g := End(f2, m);
  }

  /** examples/simple.js: the root and the forest after its final `end`.
      Both splits are accepted, and the root ends having worked its whole
      total, though it never reported any work of its own. */
  method SimpleExample() returns (f: Forest, root: Id)
    ensures root in f.nodes && f.nodes[root].done
    ensures f.nodes[root].currentWorked == 0.0 && f.nodes[root].childWorked == 100.0
    ensures Worked(f.nodes[root]) == f.nodes[root].total == 100.0
  {
    var (f1, r1) := Create(Empty, 100.0);
    root := r1;
    CreateKeepsValid(Empty, 100.0);
    // LOOP 1
    var (f2, sub1) := Split(f1, root, 50.0);
    SplitKeepsValid(f1, root, 50.0);
    var f3 := WorkLoop(f2, sub1.value);
    // LOOP 2
    var (f4, sub2) := Split(f3, root, 50.0);
    SplitKeepsValid(f3, root, 50.0);
    var f5 := WorkLoop(f4, sub2.value);
    f := End(f5, root);
  }
}

=== FILE: wrappers.dfy ===
/** The optional-value datatype used for parent links and for the results of
    operations that can be rejected. */
module Wrappers {

  datatype Option<+T> = None | Some(value: T)

}
